=== FILE: README.md ===
# Fyyur booking directory — a Dafny model of its data transformations

Fyyur is a directory of venues, artists and the shows that link them. Its request handlers (`app.py`) hold a few pure transformations between the stored records and the pages:

- the detail pages split a record's shows into past and upcoming around the current instant, with counts, and expand the stored genre string into a list (`get_data_with_shows`);
- the venue listing groups venues into areas by city, in first-seen order, and annotates each venue with its number of upcoming shows (`venues`);
- genre selections are joined with `", "` when stored and split on `", "` when shown;
- venue and artist search are case-insensitive substring filters (city, state or name for venues; name for artists);
- create submissions build a record from the form, and a venue edit overwrites every editable column from the form.

This project models those pieces as pure functions over immutable records, plus two methods with loops that follow the listing handler. `start_time` is an integer timestamp, and the current instant `now` is a parameter. The code reads the wall clock once per show. The model uses one instant for every read within a call.

Modules:

- `Optional` (`optional.dfy`): `Option` (Python's `None`) and `Result`.
- `Records` (`records.dfy`): `Show`, `Venue`, `Artist`, and `Entity` (either kind of record shown on a detail page). `Form` is the submitted multidict. Nullable text columns are `Option<string>`.
- `Genres` (`genres.dfy`): `Join` (`', '.join`) and `Split` (`str.split(', ')`, leftmost non-overlapping separators).
- `Shows` (`shows.dfy`): the reference filters `Upcoming`/`Past`, the classification loop `Partition`, and `GetDataWithShows`.
- `Areas` (`areas.dfy`): the reference listing `Expected`, built from distinct cities in first-seen order, the first-seen state and a per-city filter. The method `Venues` follows the handler's loop and is proved equal to `Expected`.
- `Search` (`search.dfy`): lower-casing, the `%term%` scan `Contains` and its reference `IsSubstring`, and the two searches.
- `Submissions` (`submissions.dfy`): `NewVenue`, `NewArtist`, `OverwriteVenue`, and the edit handler over a store of venues.

The listing groups by city alone. An area takes the state of the first venue seen in its city, even when later venues of that city give a different state. A city-and-state grouping would behave differently. The model follows the code.

## Model

| member | source | states |
|---|---|---|
| Genres.Join | app.py:212 | joining gives `""` exactly for `[]` and `[""]`, starts with the first entry, and contains the separator once there are two entries |
| Genres.Split | app.py:106 | splitting the stored genre string gives at least one entry, and no entry contains the separator |
| Genres.SplitAfterHead | app.py:106 | a string made of a separator-free head, the separator and any tail splits into that head followed by the pieces of the tail |
| Genres.JoinSplit | app.py:106 | splitting never loses text: joining the pieces again gives back the stored string |
| Genres.SplitJoin | app.py:212 | a non-empty genre list whose entries contain no `", "` is recovered exactly after it is stored and reloaded |
| Genres.EmptyListDoesNotRoundTrip | app.py:212 | the empty selection is stored as `""` and reloads as `[""]`, not `[]` |
| Genres.EntryWithSeparatorIsCut | app.py:398 | a single entry `a + ", " + b`, with `a` and `b` free of the separator, is stored unchanged and reloads as the two entries `a` and `b` |
| Shows.Partition | app.py:110-117 | the loop's upcoming list is exactly the shows after `now` in original order, its past list is the rest in original order, and each counter equals its list's length |
| Shows.UpcomingAppend | app.py:111-114 | the upcoming filter distributes over concatenation, so shows are never reordered |
| Shows.PartitionIsComplete | app.py:107-117 | the two lists together hold exactly the original shows, as multisets |
| Shows.PartitionCountsAddUp | app.py:107-117 | past count plus upcoming count equals the number of shows |
| Shows.UpcomingMembers | app.py:112-114 | a show is upcoming iff it belongs to the record and starts strictly after `now` |
| Shows.PastMembers | app.py:115-117 | a show is past iff it belongs to the record and starts at or before `now` |
| Shows.ShowAtNowIsPast | app.py:112-117 | a show starting exactly at `now` is listed as past and not as upcoming |
| Shows.UpcomingShrinksOverTime | app.py:112 | a later `now` never yields more upcoming shows |
| Shows.GetDataWithShows | app.py:104-119 | an absent record stays absent. A present record keeps its other fields; the split list, which the code writes over `genres`, is returned beside the record. That list is the genre string split on `", "`: a non-empty list of separator-free entries that joins back to the stored string. It also gets past/upcoming lists equal to the reference filters, with matching counts that add up to its number of shows |
| Shows.GetDataWithShowsAsWritten | app.py:104-119 | the shipped function, with what the name `datetime` denotes at line 112 as a parameter. Line 7 binds the module; the star import at line 16 may rebind it to the class. An absent record is returned unchanged. Under the class binding it always returns. Under the module binding it raises iff the record has a show |
| Shows.AsWrittenFailsIffShows | app.py:110-112 | the shipped function raises iff `datetime` denotes the module and the record has a show (the clock is read only inside the guard at line 110). Whenever it returns, it returns what the corrected function returns at the one instant all clock reads are taken to return |
| Shows.AsWrittenCounterexample | app.py:112 | with `datetime` denoting the module, an artist with one show makes the shipped function raise, while the corrected one lists that show as past |
| Areas.Cities | app.py:140-143 | the area keys are the cities that occur among the venues, each exactly once |
| Areas.ExpectedStep | app.py:137-153 | one iteration of the listing loop (open an area for a new city, then append the venue) extends the reference listing by one venue |
| Areas.ExpectedStepNewCity | app.py:140-153 | a venue whose city has no area yet adds one area at the end, with that venue's city, its state and the venue alone, and leaves the earlier areas as they were |
| Areas.ExpectedStepKnownCity | app.py:140-153 | a venue whose city already has an area is appended to that area's venues, and every other area stays unchanged |
| Areas.Place | app.py:140-153 | the body of the listing loop for one venue (look up the city, open an area if it is new, count upcoming shows, append) performs exactly one step of the listing |
| Areas.CountUpcoming | app.py:146-152 | the per-venue counter equals the number of the venue's shows after `now` |
| Areas.Venues | app.py:133-158 | the listing loop produces exactly the reference listing: one area per distinct city in first-seen order, the first-seen state, and the city's venues in query order with their upcoming counts |
| Areas.InCityMembers | app.py:153 | an area's list contains an entry iff it is the annotation of a venue of that city |
| Areas.AreaCitiesDistinct | app.py:140-143 | no two areas share a city |
| Areas.VenueHasArea | app.py:140-143 | every venue's city has an area |
| Areas.VenueInAreaIffSameCity | app.py:153 | a venue is listed in an area iff it is the area of its city, so it is listed in exactly one area |
| Areas.AreaListsOnlyItsVenues | app.py:146-153 | everything an area lists is a queried venue of that city, annotated with its upcoming-show count |
| Areas.CitiesInFirstSeenOrder | app.py:155-156 | the cities appear in the order of their first venue |
| Areas.AreasInFirstSeenOrder | app.py:141-143 | each area's state is that of the first venue seen in its city, and areas follow first-seen order |
| Areas.VenuesAsWritten | app.py:146-150 | the shipped listing, with what `datetime` denotes at line 149 as a parameter (line 7, possibly rebound by the star import at line 16). Under the class binding it always returns, and it can raise only when some venue has a show |
| Areas.ListingIgnoresClockWithoutShows | app.py:146-150 | when no venue has shows, each city's list does not depend on the instant |
| Areas.ListingIgnoresClock | app.py:146-150 | when no venue has shows, the whole listing is the same at every instant |
| Areas.VenuesAsWrittenFailsIffShows | app.py:146-150 | the shipped listing raises iff `datetime` denotes the module and some venue has a show. Whenever it returns, it returns the corrected listing at the one instant all clock reads are taken to return |
| Areas.VenuesAsWrittenCounterexample | app.py:149 | with `datetime` denoting the module, a single venue with one show makes the shipped listing raise |
| Search.Lower | app.py:165 | an ASCII upper-case letter becomes the letter 32 code points later, that is, its lower-case form. Every other character is unchanged |
| Search.LowerTextIdempotent | app.py:165 | lower-casing an already lower-cased text changes nothing |
| Search.Contains | app.py:170 | the `%term%` scan succeeds iff the term occurs at some position of the text |
| Search.FieldMatches | app.py:170-172 | a null column never matches, and a present one matches iff its lower-cased text contains the term |
| Search.SearchVenues | app.py:161-179 | each queried venue whose lower-cased city, state or name contains the lower-cased term is returned as many times as the query holds it. No other venue is returned. The count equals the number of rows returned |
| Search.FilterAppend | app.py:168-174 | the row filter distributes over concatenation, so matching rows keep their relative order |
| Search.VenueSearchKeepsQueryOrder | app.py:168-174 | the results for a query split in two are the results for each part, in order |
| Search.SearchArtists | app.py:270-279 | each queried artist whose lower-cased name contains the lower-cased term is returned as many times as the query holds it. No other artist is returned. The count equals the number of rows returned |
| Search.EmptyTermListsAllVenues | app.py:165-174 | an empty or absent term returns every venue that has a city, a state or a name |
| Search.EmptyTermListsAllArtists | app.py:272-274 | an empty or absent term returns every artist that has a name |
| Search.VenueSearchIgnoresTermCase | app.py:165-172 | a term and its lower-case form return the same venues |
| Search.ArtistSearchIgnoresTermCase | app.py:272-274 | a term and its lower-case form return the same artists |
| Search.FieldMatchIgnoresColumnCase | app.py:170-172 | a column matches the same terms whatever case it is stored in |
| Submissions.NewVenue | app.py:204-216 | a created venue has the given id and no shows. Each text column holds the first value submitted under its key, or null when none was. Genres hold the submitted list joined with `", "`, and the seeking flag is on iff `"y"` was submitted |
| Submissions.NewArtist | app.py:391-402 | the same for a created artist, with `seeking_venue` as its flag |
| Submissions.OverwriteVenue | app.py:348-358 | an edit keeps the venue's id and shows. Each of the eleven editable columns takes the value submitted under its own key (null when absent), genres take the joined list, and the seeking flag is on iff the submitted value is `"y"` |
| Submissions.MissingFieldsBecomeNull | app.py:348-358 | for every form, an editable column whose key was not submitted becomes null. Missing genres store `""`, and a missing checkbox stores false |
| Submissions.EditVenueSubmission | app.py:342-367 | an unknown id takes the error path and leaves the store unchanged. A known id takes the full overwrite of `OverwriteVenue`. No other venue changes, and a store keyed by id stays keyed by id |
| Submissions.EditIsCreateKeepingIdAndShows | app.py:348-358 | an edited venue is the record a create submission of the same form would build, with the old id and shows |
| Submissions.EditDiscardsPreviousValues | app.py:348-358 | the result of an edit does not depend on the previous editable values: it is a full overwrite, not a merge |
| Submissions.EditIsIdempotent | app.py:348-358 | submitting the same edit twice gives the same venue as once |
| Submissions.PhoneOnlyEditClearsTheRest | app.py:348-358 | an edit form carrying only a phone number sets the phone and clears every other editable column |
| Submissions.CreatedVenueReadsBack | app.py:204-216 | a new venue's detail page shows the submitted genre list (non-empty, no `", "` inside entries), no shows, and a seeking flag that is on iff `"y"` was submitted |
| Submissions.CreatedArtistReadsBack | app.py:391-402 | the same for a new artist and its `seeking_venue` flag |
| Submissions.NoGenresReadBackAsOneEmptyGenre | app.py:212 | with no genre selected, the venue stores `""` and its page lists `[""]` |
| Submissions.SeekingFlagDefaultsOff | app.py:214 | an absent checkbox leaves the venue's and the artist's seeking flag off |

## Left out

- Shows.GetDataWithShowsAsWritten, Areas.VenuesAsWritten: the code calls `datetime.now()` once per show, inside the loops at app.py:111 and app.py:147. The model uses one instant `now` for the whole call. Reads of the local wall clock may differ, or even go backwards at a daylight-saving change. Shows starting between two reads could then be classified against different instants, which no single `now` reproduces.
- Flask routing, `render_template`, `flash`, `redirect`, and the 404/500 handlers (app.py:125-127, 503-510): page and message plumbing with no data logic.
- The database session lifecycle (add, commit, rollback, close) and migrations: these are library calls. A failing commit is not modelled. Inside the guarded blocks, the one error path modelled is editing an unknown venue.
- The completion messages raise when `name` was not submitted. This happens after the record was built and committed. `request.form['name']` (app.py:228, 230, 414, 416) raises a missing-key error that the framework answers with status 400. `'Venue ' + request.form.get('name')` (app.py:370, 372) raises a type error that gives status 500. The model covers the records and stops before the messages, so the phone-only edit in `PhoneOnlyEditClearsTheRest` describes the stored venue, not the response.
- Id assignment on create: the store assigns it, so `NewVenue` and `NewArtist` take the id as a parameter.
- `format_datetime` (app.py:91-100): a wrapper over date parsing and formatting libraries.
- `delete_venue` (app.py:235-260): it dereferences a possibly absent venue, and no cascade is declared on the relationship, so what happens to its shows depends on database settings the code does not show.
- The stub handlers `edit_artist`, `edit_artist_submission` and `edit_venue`, the unused `data` list in `shows`, and `create_show_submission`, which only passes raw form strings to the store.
- Logging setup (app.py:513-521) and `config.py`: environment and file configuration.
- `num_shows` in the listing loop (app.py:138, 148): it is counted but never used.
- Search.SearchVenues: SQL `LIKE` is modelled as plain substring matching. The precondition requires a term free of `%`, `_` and `\`, because the term is not escaped: `%` and `_` act as wildcards and `\` is an escape character on some databases.
- Search.SearchArtists: the same `LIKE` precondition as `SearchVenues`.
- Search.Lower: lower-casing is ASCII-only. Python's `str.lower` and the database's `lower` also fold non-ASCII letters, possibly in different ways.
- Search: the order of the result rows is taken to be query order. The query has no `ORDER BY`, so the real order is whatever the database returns.
- Records: `genres` is a non-null string. Every write path stores a joined list. A null `genres` column would make `get_data_with_shows` raise on `split`, and that is not modelled.
- Search: the result is modelled as a list. The handler passes the query object itself to the page, and the count comes from a second query with the same filter.

## Findings

Whether these two calls raise depends on a file outside this model. `from forms import *` (app.py:16) runs after `import datetime` (app.py:7). If `forms` exports the name `datetime`, for example through `from datetime import datetime`, the name denotes the class and the call works. The as-written members take the binding as a parameter, and the discrepancy is claimed only for the module binding.

| source | as written | input that shows it | evidently intended | confidence | as-written member | corrected member |
|---|---|---|---|---|---|---|
| app.py:112 | `datetime.now()` is called on the name bound by `import datetime` (app.py:7). If the star import at app.py:16 leaves that name on the module, the call raises `AttributeError`, because the module has no attribute `now` | under the module binding, any venue or artist with at least one show, e.g. an artist with one show at time 0 | compare each show with the current instant (`datetime.datetime.now()`) | unverified: holds only if `forms` does not bind `datetime`; not executed | Shows.GetDataWithShowsAsWritten | Shows.GetDataWithShows |
| app.py:149 | the same call in the venue listing loop, with the same dependency on app.py:16 | under the module binding, a single venue that has one show | the same comparison with the current instant | unverified: holds only if `forms` does not bind `datetime`; not executed | Areas.VenuesAsWritten | Areas.Venues |

=== FILE: areas.dfy ===
/** The venue listing page: venues grouped into areas keyed by city, in first-seen order. */
module Areas {
  import opened Optional
  import opened Records
  import Shows

  /** A venue annotated with the number of its upcoming shows. */
  datatype ListedVenue = ListedVenue(venue: Venue, numUpcomingShows: nat)

  /** One area of the listing: its city, the state it is shown with, and its venues. */
  datatype Area = Area(city: Option<string>, state: Option<string>, venues: seq<ListedVenue>)

  /** The annotation the listing gives a venue at instant `now`. */
  function Listed(v: Venue, now: int): ListedVenue {
    ListedVenue(v, |Shows.Upcoming(v.shows, now)|)
  }

  /** Some venue of `vs` is in `city` (`None` is the city of venues whose city is null). */
  predicate HasCity(vs: seq<Venue>, city: Option<string>) {
    exists i :: 0 <= i < |vs| && vs[i].city == city
  }

  /** The position of the first venue of `vs` in `city`. */
  function FirstIndex(vs: seq<Venue>, city: Option<string>): (i: nat)
    requires HasCity(vs, city)
    ensures i < |vs| && vs[i].city == city
    ensures forall j :: 0 <= j < i ==> vs[j].city != city
  {
    if vs[0].city == city then 0
    else
      assert HasCity(vs[1..], city) by {
        var i :| 0 <= i < |vs| && vs[i].city == city;
        assert vs[1..][i - 1].city == city;
      }
      1 + FirstIndex(vs[1..], city)
  }

  /** The state of the first venue seen in `city`. */
  function FirstState(vs: seq<Venue>, city: Option<string>): Option<string>
    requires HasCity(vs, city)
  {
    vs[FirstIndex(vs, city)].state
  }

  /** The distinct cities of `vs`, each listed once where it first occurs. */
  function Cities(vs: seq<Venue>): (r: seq<Option<string>>)
    ensures forall c :: c in r <==> HasCity(vs, c)
    ensures forall i, j :: 0 <= i < j < |r| ==> r[i] != r[j]
  {
    if |vs| == 0 then []
    else
      var prefix := vs[..|vs| - 1];
      var city := vs[|vs| - 1].city;
      assert forall c :: HasCity(vs, c) <==> HasCity(prefix, c) || c == city by {
        forall c | HasCity(vs, c) && c != city
          ensures HasCity(prefix, c)
        {
          var i :| 0 <= i < |vs| && vs[i].city == c;
          assert prefix[i].city == c;
        }
        forall c | HasCity(prefix, c)
          ensures HasCity(vs, c)
        {
          var i :| 0 <= i < |prefix| && prefix[i].city == c;
          assert vs[i].city == c;
        }
      }
      var before := Cities(prefix);
      if city in before then before else before + [city]
  }

  /** The venues of `vs` in `city`, annotated, in their original order. */
  function InCity(vs: seq<Venue>, city: Option<string>, now: int): seq<ListedVenue>
  {
    if |vs| == 0 then []
    else
      InCity(vs[..|vs| - 1], city, now)
        + (if vs[|vs| - 1].city == city then [Listed(vs[|vs| - 1], now)] else [])
  }

  /** Reference definition of the listing: one area per distinct city, in first-seen order. */
  function Expected(vs: seq<Venue>, now: int): (r: seq<Area>)
    ensures |r| == |Cities(vs)|
  {
    var cities := Cities(vs);
    seq(|cities|, k requires 0 <= k < |cities| =>
      Area(cities[k], FirstState(vs, cities[k]), InCity(vs, cities[k], now)))
  }

  /** The position of the area for `city` in `areas`, if there is one (the dictionary lookup). */
  function AreaIndex(areas: seq<Area>, city: Option<string>): (r: Option<nat>)
    ensures r.Some? ==> r.value < |areas| && areas[r.value].city == city
    ensures r.None? ==> forall k :: 0 <= k < |areas| ==> areas[k].city != city
  {
    if |areas| == 0 then None
    else if areas[0].city == city then Some(0)
    else match AreaIndex(areas[1..], city)
      case None => None
      case Some(k) => Some(k + 1)
  }

  /** One iteration of the listing loop: open an area for a new city, then append the venue to it. */
  function AddVenue(areas: seq<Area>, v: Venue, now: int): seq<Area> {
    match AreaIndex(areas, v.city)
    case None => areas + [Area(v.city, v.state, [Listed(v, now)])]
    case Some(k) => areas[k := areas[k].(venues := areas[k].venues + [Listed(v, now)])]
  }

  /** Appending a venue does not move the first venue of a city already seen. */
  lemma FirstIndexAppend(vs: seq<Venue>, v: Venue, city: Option<string>)
    requires HasCity(vs, city)
    ensures HasCity(vs + [v], city)
    ensures FirstIndex(vs + [v], city) == FirstIndex(vs, city)
  {
    var w := vs + [v];
    var i := FirstIndex(vs, city);
    assert w[i].city == city;
    var j := FirstIndex(w, city);
    assert j <= i;
  }

  /** A venue whose city is new becomes that city's first venue. */
  lemma FirstIndexNewCity(vs: seq<Venue>, v: Venue)
    requires !HasCity(vs, v.city)
    ensures HasCity(vs + [v], v.city)
    ensures FirstState(vs + [v], v.city) == v.state
  {
    var w := vs + [v];
    assert w[|vs|].city == v.city;
    assert FirstIndex(w, v.city) == |vs|;
  }

  /** A city with no venue has no listed venues. */
  lemma {:induction false} InCityAbsent(vs: seq<Venue>, city: Option<string>, now: int)
    requires !HasCity(vs, city)
    ensures InCity(vs, city, now) == []
  {
    if |vs| > 0 {
      var prefix := vs[..|vs| - 1];
      assert forall i :: 0 <= i < |prefix| ==> prefix[i] == vs[i];
      InCityAbsent(prefix, city, now);
      assert vs[|vs| - 1].city != city;
    }
  }

  /** The area the reference listing holds at position `k`. */
  lemma ExpectedAt(vs: seq<Venue>, now: int, k: nat)
    requires k < |Cities(vs)|
    ensures k < |Expected(vs, now)|
    ensures Expected(vs, now)[k]
         == Area(Cities(vs)[k], FirstState(vs, Cities(vs)[k]), InCity(vs, Cities(vs)[k], now))
  {
  }

  /** Appending a venue keeps the first-seen state of every city already seen. */
  lemma FirstStateAppend(vs: seq<Venue>, v: Venue, c: Option<string>)
    requires HasCity(vs, c)
    ensures HasCity(vs + [v], c) && FirstState(vs + [v], c) == FirstState(vs, c)
  {
    FirstIndexAppend(vs, v, c);
    assert (vs + [v])[FirstIndex(vs, c)] == vs[FirstIndex(vs, c)];
  }

  /** A venue of a new city adds an area for it at the end of the reference listing. */
  lemma ExpectedStepNewCity(vs: seq<Venue>, v: Venue, now: int)
    requires !HasCity(vs, v.city)
    ensures Expected(vs + [v], now) == Expected(vs, now) + [Area(v.city, v.state, [Listed(v, now)])]
  {
    var w := vs + [v];
    assert w[..|w| - 1] == vs;
    var cs := Cities(vs);
    assert v.city !in cs;
    assert Cities(w) == cs + [v.city];
    var before := Expected(vs, now);
    var after := Expected(w, now);
    var added := before + [Area(v.city, v.state, [Listed(v, now)])];
    assert |after| == |added|;
    forall k | 0 <= k < |after|
      ensures after[k] == added[k]
    {
      ExpectedAt(w, now, k);
      if k < |before| {
        ExpectedAt(vs, now, k);
        assert cs[k] != v.city;
        FirstStateAppend(vs, v, cs[k]);
      } else {
        InCityAbsent(vs, v.city, now);
        FirstIndexNewCity(vs, v);
      }
    }
  }

  /** A venue of a city already seen is appended to that city's area and changes nothing else. */
  lemma ExpectedStepKnownCity(vs: seq<Venue>, v: Venue, now: int, k0: nat)
    requires k0 < |Expected(vs, now)| && Expected(vs, now)[k0].city == v.city
    ensures Expected(vs + [v], now)
         == Expected(vs, now)[k0 := Expected(vs, now)[k0].(venues := Expected(vs, now)[k0].venues + [Listed(v, now)])]
  {
    var w := vs + [v];
    assert w[..|w| - 1] == vs;
    var cs := Cities(vs);
    ExpectedAt(vs, now, k0);
    assert cs[k0] == v.city;
    assert Cities(w) == cs;
    var before := Expected(vs, now);
    var after := Expected(w, now);
    var added := before[k0 := before[k0].(venues := before[k0].venues + [Listed(v, now)])];
    assert |after| == |added|;
    forall k | 0 <= k < |after|
      ensures after[k] == added[k]
    {
      ExpectedAt(w, now, k);
      ExpectedAt(vs, now, k);
      FirstStateAppend(vs, v, cs[k]);
      if k != k0 {
        assert cs[k] != v.city;
      }
    }
  }

  /** The reference listing grows exactly as one iteration of the listing loop says. */
  lemma ExpectedStep(vs: seq<Venue>, v: Venue, now: int)
    ensures Expected(vs + [v], now) == AddVenue(Expected(vs, now), v, now)
  {
    match AreaIndex(Expected(vs, now), v.city)
    case None =>
      assert !HasCity(vs, v.city) by {
        if HasCity(vs, v.city) {
          var k :| 0 <= k < |Cities(vs)| && Cities(vs)[k] == v.city;
          ExpectedAt(vs, now, k);
        }
      }
      ExpectedStepNewCity(vs, v, now);
    case Some(k0) =>
      ExpectedStepKnownCity(vs, v, now, k0);
  }

  /** The number of upcoming shows, counted by a loop over the venue's shows. */
  method CountUpcoming(shows: seq<Show>, now: int) returns (n: nat)
    ensures n == |Shows.Upcoming(shows, now)|
  {
    n := 0;
    var i := 0;
    while i < |shows|
      invariant 0 <= i <= |shows|
      invariant n == |Shows.Upcoming(shows[..i], now)|
    {
      Shows.UpcomingAppend(shows[..i], [shows[i]], now);
      assert shows[..i + 1] == shows[..i] + [shows[i]];
      if shows[i].startTime > now {
        n := n + 1;
      }
      i := i + 1;
    }
    assert shows[..i] == shows;
  }

  /** The body of the listing loop for one venue: find or open its city's area, then append the annotated venue. */
  method Place(areas: seq<Area>, venue: Venue, now: int) returns (r: seq<Area>)
    ensures r == AddVenue(areas, venue, now)
  {
    var found := AreaIndex(areas, venue.city);
    var k: nat;
    r := areas;
    if found.None? {
      r := r + [Area(venue.city, venue.state, [])];
      k := |r| - 1;
    } else {
      k := found.value;
    }
    var numUpcomingShows := CountUpcoming(venue.shows, now);
    assert ListedVenue(venue, numUpcomingShows) == Listed(venue, now);
    r := r[k := r[k].(venues := r[k].venues + [ListedVenue(venue, numUpcomingShows)])];
    if found.None? {
      assert r[|areas|] == Area(venue.city, venue.state, [Listed(venue, now)]);
      assert r == areas + [r[|areas|]];
    }
  }

  /** The listing page: every venue in query order, grouped by city, each with its upcoming-show count. */
  method Venues(all: seq<Venue>, now: int) returns (areas: seq<Area>)
    ensures areas == Expected(all, now)
  {
    areas := [];
    var i := 0;
    while i < |all|
      invariant 0 <= i <= |all|
      invariant areas == Expected(all[..i], now)
    {
      ExpectedStep(all[..i], all[i], now);
      areas := Place(areas, all[i], now);
      assert all[..i + 1] == all[..i] + [all[i]];
      i := i + 1;
    }
    assert all[..i] == all;
  }

  /** A listed venue is in a city's list iff it is the annotation of some venue in that city. */
  lemma {:induction false} InCityMembers(vs: seq<Venue>, city: Option<string>, now: int, lv: ListedVenue)
    ensures lv in InCity(vs, city, now) <==> exists i :: 0 <= i < |vs| && vs[i].city == city && lv == Listed(vs[i], now)
  {
    if |vs| > 0 {
      var prefix := vs[..|vs| - 1];
      InCityMembers(prefix, city, now, lv);
      assert forall i :: 0 <= i < |prefix| ==> prefix[i] == vs[i];
      if lv in InCity(vs, city, now) && lv !in InCity(prefix, city, now) {
        assert vs[|vs| - 1].city == city && lv == Listed(vs[|vs| - 1], now);
      }
    }
  }

  /** No two areas share a city. */
  lemma AreaCitiesDistinct(vs: seq<Venue>, now: int, k1: nat, k2: nat)
    requires k1 < k2 < |Expected(vs, now)|
    ensures Expected(vs, now)[k1].city != Expected(vs, now)[k2].city
  {
    var cs := Cities(vs);
    assert cs[k1] != cs[k2];
  }

  /** Every venue's city has an area. */
  lemma VenueHasArea(vs: seq<Venue>, now: int, i: nat)
    requires i < |vs|
    ensures exists k :: 0 <= k < |Expected(vs, now)| && Expected(vs, now)[k].city == vs[i].city
  {
    var cs := Cities(vs);
    assert HasCity(vs, vs[i].city);
    var k :| 0 <= k < |cs| && cs[k] == vs[i].city;
    assert Expected(vs, now)[k].city == vs[i].city;
  }

  /** A venue is listed in an area iff the area is its city's, so it is listed in exactly one area. */
  lemma VenueInAreaIffSameCity(vs: seq<Venue>, now: int, i: nat, k: nat)
    requires i < |vs| && k < |Expected(vs, now)|
    ensures Listed(vs[i], now) in Expected(vs, now)[k].venues <==> Expected(vs, now)[k].city == vs[i].city
  {
    InCityMembers(vs, Cities(vs)[k], now, Listed(vs[i], now));
  }

  /** Whatever an area lists is a venue of the query, in that area's city, with its upcoming-show count. */
  lemma AreaListsOnlyItsVenues(vs: seq<Venue>, now: int, k: nat, lv: ListedVenue)
    requires k < |Expected(vs, now)| && lv in Expected(vs, now)[k].venues
    ensures lv.venue in vs
    ensures lv.venue.city == Expected(vs, now)[k].city
    ensures lv.numUpcomingShows == |Shows.Upcoming(lv.venue.shows, now)|
  {
    InCityMembers(vs, Cities(vs)[k], now, lv);
  }

  /** Areas appear in the order their cities are first seen. */
  lemma {:induction false} CitiesInFirstSeenOrder(vs: seq<Venue>)
    ensures forall k1, k2 :: 0 <= k1 < k2 < |Cities(vs)| ==> FirstIndex(vs, Cities(vs)[k1]) < FirstIndex(vs, Cities(vs)[k2])
  {
    if |vs| > 0 {
      var prefix := vs[..|vs| - 1];
      var v := vs[|vs| - 1];
      assert vs == prefix + [v];
      CitiesInFirstSeenOrder(prefix);
      var cs := Cities(prefix);
      forall c | c in cs
        ensures FirstIndex(vs, c) == FirstIndex(prefix, c)
      {
        FirstIndexAppend(prefix, v, c);
      }
      if v.city !in cs {
        assert FirstIndex(vs, v.city) == |prefix|;
      }
    }
  }

  /** Each area carries its city's first-seen state, and areas follow first-seen order. */
  lemma AreasInFirstSeenOrder(vs: seq<Venue>, now: int)
    ensures forall k :: 0 <= k < |Expected(vs, now)| ==>
      HasCity(vs, Expected(vs, now)[k].city) &&
      Expected(vs, now)[k].state == vs[FirstIndex(vs, Expected(vs, now)[k].city)].state
    ensures forall k1, k2 :: 0 <= k1 < k2 < |Expected(vs, now)| ==>
      FirstIndex(vs, Expected(vs, now)[k1].city) < FirstIndex(vs, Expected(vs, now)[k2].city)
  {
    CitiesInFirstSeenOrder(vs);
  }

  /**
   * The shipped listing under either binding of `datetime` (see `Shows.DatetimeBinding`). The clock is read
   * once per show: under the module binding the first such read raises. Under the class binding every read is
   * taken to return the same instant `now`, whereas the shipped code may see the wall clock move (or step
   * back) between reads. With no shows anywhere no clock is read and every count is zero.
   */
  function VenuesAsWritten(all: seq<Venue>, binding: Shows.DatetimeBinding, now: int): (r: Result<seq<Area>, Shows.Fault>)
    ensures binding == Shows.DatetimeClass ==> r.Ok?
    ensures r.Err? ==> exists i :: 0 <= i < |all| && |all[i].shows| > 0
  {
    if !(exists i :: 0 <= i < |all| && |all[i].shows| > 0) then
      Ok(Expected(all, 0))
    else if binding == Shows.DatetimeModule then
      Err(Shows.AttributeError("module 'datetime' has no attribute 'now'"))
    else
      Ok(Expected(all, now))
  }

  /** With no shows anywhere, each city's list is the same at every instant. */
  lemma {:induction false} ListingIgnoresClockWithoutShows(vs: seq<Venue>, now: int, city: Option<string>)
    requires forall i :: 0 <= i < |vs| ==> |vs[i].shows| == 0
    ensures InCity(vs, city, now) == InCity(vs, city, 0)
  {
    if |vs| > 0 {
      ListingIgnoresClockWithoutShows(vs[..|vs| - 1], now, city);
    }
  }

  /** With no shows anywhere, the whole listing is the same at every instant. */
  lemma ListingIgnoresClock(vs: seq<Venue>, now: int)
    requires forall i :: 0 <= i < |vs| ==> |vs[i].shows| == 0
    ensures Expected(vs, now) == Expected(vs, 0)
  {
    var cs := Cities(vs);
    forall k | 0 <= k < |cs|
      ensures InCity(vs, cs[k], now) == InCity(vs, cs[k], 0)
    {
      ListingIgnoresClockWithoutShows(vs, now, cs[k]);
    }
  }

  /**
   * The shipped listing fails iff `datetime` denotes the module and some venue has a show; whenever it
   * returns, it returns the corrected listing at the single instant all clock reads are taken to return.
   */
  lemma VenuesAsWrittenFailsIffShows(all: seq<Venue>, binding: Shows.DatetimeBinding, now: int)
    ensures VenuesAsWritten(all, binding, now).Err? <==>
      binding == Shows.DatetimeModule && exists i :: 0 <= i < |all| && |all[i].shows| > 0
    ensures VenuesAsWritten(all, binding, now).Ok? ==> VenuesAsWritten(all, binding, now).value == Expected(all, now)
  {
    if !(exists i :: 0 <= i < |all| && |all[i].shows| > 0) {
      ListingIgnoresClock(all, now);
    }
  }

  /** Under the module binding, a single venue with one show makes the shipped listing raise. */
  lemma VenuesAsWrittenCounterexample()
    ensures VenuesAsWritten([Venue(1, None, None, None, None, None, None, None, "", None, false, None, [Show(1, 1, 1, 0)])],
      Shows.DatetimeModule, 0).Err?
  {
    var v := Venue(1, None, None, None, None, None, None, None, "", None, false, None, [Show(1, 1, 1, 0)]);
    assert |[v][0].shows| > 0;
  }
}

=== FILE: genres.dfy ===
/** The genre list is stored as one string joined with ", " and split back on the same separator. */
module Genres {
  import opened Optional

  /** The two-character separator used for both joining and splitting. */
  const Separator: string := ", "

  /** The separator starts at position `i` of `s`. */
  predicate SeparatorAt(s: string, i: int) {
    0 <= i && i + 1 < |s| && s[i] == ',' && s[i + 1] == ' '
  }

  /** `s` contains the separator somewhere. */
  predicate HasSeparator(s: string) {
    exists i :: 0 <= i < |s| && SeparatorAt(s, i)
  }

  /** The leftmost position of the separator in `s`, if any. */
  function FirstSeparator(s: string): (r: Option<nat>)
    ensures r.Some? ==> SeparatorAt(s, r.value)
    ensures r.Some? ==> forall j :: 0 <= j < r.value ==> !SeparatorAt(s, j)
    ensures r.None? <==> !HasSeparator(s)
  {
    if |s| < 2 then None
    else if s[0] == ',' && s[1] == ' ' then assert SeparatorAt(s, 0); Some(0)
    else
      assert forall i :: SeparatorAt(s, i) ==> i == 0 || SeparatorAt(s[1..], i - 1);
      match FirstSeparator(s[1..])
      case None => None
      case Some(k) =>
        assert SeparatorAt(s, k + 1);
        Some(k + 1)
  }

  /** Python's `', '.join(parts)`: the parts with the separator between neighbours. */
  function Join(parts: seq<string>): (r: string)
    ensures r == "" <==> parts == [] || parts == [""]
    ensures |parts| >= 1 ==> |parts[0]| <= |r| && r[..|parts[0]|] == parts[0]
    ensures |parts| >= 2 ==> HasSeparator(r)
  {
    if |parts| == 0 then ""
    else if |parts| == 1 then parts[0]
    else
      var r := parts[0] + Separator + Join(parts[1..]);
      assert SeparatorAt(r, |parts[0]|);
      r
  }

  /** Python's `s.split(', ')`: the pieces between leftmost non-overlapping separators. */
  function Split(s: string): (r: seq<string>)
    ensures |r| >= 1
    ensures forall k :: 0 <= k < |r| ==> !HasSeparator(r[k])
    decreases |s|
  {
    match FirstSeparator(s)
    case None => [s]
    case Some(i) =>
      assert forall j :: SeparatorAt(s[..i], j) ==> SeparatorAt(s, j) && j < i;
      [s[..i]] + Split(s[i + 2..])
  }

  /** Splitting never loses text: joining the pieces gives back the stored string. */
  lemma {:induction false} JoinSplit(s: string)
    ensures Join(Split(s)) == s
    decreases |s|
  {
    match FirstSeparator(s)
    case None =>
    case Some(i) =>
      var rest := Split(s[i + 2..]);
      JoinSplit(s[i + 2..]);
      assert Split(s) == [s[..i]] + rest;
      assert Join(Split(s)) == s[..i] + Separator + Join(rest);
      assert s == s[..i] + Separator + s[i + 2..];
  }

  /** After a separator-free head, the first separator is the one that follows it. */
  lemma FirstSeparatorAfterHead(head: string, tail: string)
    requires !HasSeparator(head)
    ensures FirstSeparator(head + Separator + tail) == Some(|head|)
  {
    var s := head + Separator + tail;
    assert SeparatorAt(s, |head|);
    forall j | 0 <= j < |head|
      ensures !SeparatorAt(s, j)
    {
      if j + 1 < |head| {
        assert !SeparatorAt(head, j);
      } else {
        assert s[j + 1] == ',';
      }
    }
  }

  /** A separator-free head is cut off as the first entry, and the rest splits on its own. */
  lemma SplitAfterHead(head: string, tail: string)
    requires !HasSeparator(head)
    ensures Split(head + Separator + tail) == [head] + Split(tail)
  {
    var s := head + Separator + tail;
    FirstSeparatorAfterHead(head, tail);
    assert s[..|head|] == head;
    assert s[|head| + 2..] == tail;
  }

  /** A non-empty list whose entries do not contain the separator survives a store and reload. */
  lemma {:induction false} SplitJoin(parts: seq<string>)
    requires |parts| >= 1
    requires forall k :: 0 <= k < |parts| ==> !HasSeparator(parts[k])
    ensures Split(Join(parts)) == parts
  {
    if |parts| == 1 {
      assert Join(parts) == parts[0];
    } else {
      var tail := Join(parts[1..]);
      assert Join(parts) == parts[0] + Separator + tail;
      SplitAfterHead(parts[0], tail);
      SplitJoin(parts[1..]);
      assert parts == [parts[0]] + parts[1..];
    }
  }

  /** The empty list is stored as "" and reloads as a list holding one empty genre. */
  lemma EmptyListDoesNotRoundTrip()
    ensures Join([]) == ""
    ensures Split("") == [""]
    ensures Split(Join([])) != []
  {
  }

  /** An entry that itself contains the separator, between two separator-free words, comes back as those two entries. */
  lemma EntryWithSeparatorIsCut(a: string, b: string)
    requires !HasSeparator(a) && !HasSeparator(b)
    ensures Join([a + Separator + b]) == a + Separator + b
    ensures Split(Join([a + Separator + b])) == [a, b]
  {
    assert Join([a, b]) == a + Separator + b;
    SplitJoin([a, b]);
  }
}

=== FILE: optional.dfy ===
/** A nullable value and an outcome that may be a fault. */
module Optional {

  /** A value that may be absent; stands for Python's `None`. */
  datatype Option<+T> = None | Some(value: T) {

    /** The wrapped value, or `default` when absent (Python's `dict.get(key, default)`). */
    function GetOr(default: T): T {
      match this
      case Some(v) => v
      case None => default
    }
  }

  /** The outcome of a step that may raise. */
  datatype Result<+T, +E> = Ok(value: T) | Err(error: E)
}

=== FILE: records.dfy ===
/** The three persisted entities and the submitted-form multidict they are built from. */
module Records {
  import opened Optional

  /** A scheduled performance; `startTime` is a timestamp on an integer clock. */
  datatype Show = Show(id: int, artistId: int, venueId: int, startTime: int)

  /** A place that hosts shows. Nullable text columns are `Option<string>`; `genres` holds the joined list. */
  datatype Venue = Venue(
    id: int,
    name: Option<string>,
    city: Option<string>,
    state: Option<string>,
    address: Option<string>,
    phone: Option<string>,
    websiteLink: Option<string>,
    imageLink: Option<string>,
    genres: string,
    facebookLink: Option<string>,
    seekingTalent: bool,
    seekingDescription: Option<string>,
    shows: seq<Show>)

  /** A performer who plays shows. */
  datatype Artist = Artist(
    id: int,
    name: Option<string>,
    city: Option<string>,
    state: Option<string>,
    phone: Option<string>,
    genres: string,
    imageLink: Option<string>,
    facebookLink: Option<string>,
    websiteLink: Option<string>,
    seekingVenue: bool,
    seekingDescription: Option<string>,
    shows: seq<Show>)

  /** Either kind of record that the detail pages present with its shows. */
  datatype Entity = OfVenue(venue: Venue) | OfArtist(artist: Artist) {

    function Shows(): seq<Show> {
      match this
      case OfVenue(v) => v.shows
      case OfArtist(a) => a.shows
    }

    function GenreText(): string {
      match this
      case OfVenue(v) => v.genres
      case OfArtist(a) => a.genres
    }
  }

  /** A submitted form: every field name maps to the values sent under it, in order. */
  type Form = map<string, seq<string>>

  /** The first value sent under `key`, or `None` when there is none. */
  function Get(form: Form, key: string): (r: Option<string>)
    ensures r.Some? <==> key in form && |form[key]| > 0
    ensures r.Some? ==> r.value == form[key][0]
  {
    if key in form && |form[key]| > 0 then Some(form[key][0]) else None
  }

  /** Every value sent under `key`, or the empty list. */
  function GetList(form: Form, key: string): (r: seq<string>)
    ensures key !in form ==> r == []
  {
    if key in form then form[key] else []
  }
}

=== FILE: search.dfy ===
/** Case-insensitive substring search over venues (city, state or name) and artists (name). */
module Search {
  import opened Optional
  import opened Records

  /** Lower-cases an ASCII letter and leaves every other character alone. */
  function Lower(c: char): (r: char)
    ensures !('A' <= r <= 'Z')
    ensures 'A' <= c <= 'Z' ==> r as int == c as int + 32
    ensures !('A' <= c <= 'Z') ==> r == c
  {
    if 'A' <= c <= 'Z' then (c as int + 32) as char else c
  }

  /** Lower-cases every character of `s`. */
  function LowerText(s: string): (r: string)
    ensures |r| == |s|
    ensures forall i :: 0 <= i < |s| ==> r[i] == Lower(s[i])
  {
    seq(|s|, i requires 0 <= i < |s| => Lower(s[i]))
  }

  /** Lower-casing twice is lower-casing once. */
  lemma LowerTextIdempotent(s: string)
    ensures LowerText(LowerText(s)) == LowerText(s)
  {
    var once := LowerText(s);
    forall i | 0 <= i < |s|
      ensures LowerText(once)[i] == once[i]
    {
      assert !('A' <= once[i] <= 'Z');
    }
  }

  /** `term` occurs in `text` starting at position `i`. */
  predicate OccursAt(term: string, text: string, i: int) {
    0 <= i && i + |term| <= |text| && text[i..i + |term|] == term
  }

  /** Reference definition: `term` occurs somewhere in `text`. */
  predicate IsSubstring(term: string, text: string) {
    exists i :: 0 <= i <= |text| && OccursAt(term, text, i)
  }

  /** The pattern `%term%` of a SQL LIKE for a term free of wildcards: a scan over the start positions. */
  function Contains(text: string, term: string): (r: bool)
    ensures r <==> IsSubstring(term, text)
    decreases |text|
  {
    if |term| > |text| then false
    else if text[..|term|] == term then
      assert OccursAt(term, text, 0);
      true
    else
      assert forall i :: OccursAt(term, text, i) ==> i > 0 && OccursAt(term, text[1..], i - 1) by {
        forall i | OccursAt(term, text, i)
          ensures i > 0 && OccursAt(term, text[1..], i - 1)
        {
          if i > 0 {
            assert text[1..][i - 1..i - 1 + |term|] == text[i..i + |term|];
          }
        }
      }
      assert forall i :: OccursAt(term, text[1..], i) ==> OccursAt(term, text, i + 1) by {
        forall i | OccursAt(term, text[1..], i)
          ensures OccursAt(term, text, i + 1)
        {
          assert text[1..][i..i + |term|] == text[i + 1..i + 1 + |term|];
        }
      }
      Contains(text[1..], term)
  }

  /** The term contains none of the characters SQL LIKE treats specially (`%`, `_`, and the escape `\`). */
  predicate PlainTerm(term: string) {
    forall i :: 0 <= i < |term| ==> term[i] != '%' && term[i] != '_' && term[i] != '\\'
  }

  /** The submitted search term, defaulting to the empty string when the field is absent. */
  function RawTerm(form: Form): string {
    Get(form, "search_term").GetOr("")
  }

  /** One column's filter: a null column never matches; otherwise the lower-cased column contains the term. */
  function FieldMatches(field: Option<string>, term: string): (r: bool)
    ensures r <==> field.Some? && IsSubstring(term, LowerText(field.value))
  {
    field.Some? && Contains(LowerText(field.value), term)
  }

  /** The venue filter: the term matches the city, the state or the name. */
  predicate VenueMatches(v: Venue, term: string) {
    FieldMatches(v.city, term) || FieldMatches(v.state, term) || FieldMatches(v.name, term)
  }

  /** The artist filter: the term matches the name. */
  predicate ArtistMatches(a: Artist, term: string) {
    FieldMatches(a.name, term)
  }

  /** The records that satisfy `keep`, in query order. */
  function Filter<T(!new)>(xs: seq<T>, keep: T -> bool): (r: seq<T>)
    ensures forall x :: multiset(r)[x] == if keep(x) then multiset(xs)[x] else 0
    ensures forall x :: x in r <==> x in xs && keep(x)
  {
    if |xs| == 0 then []
    else
      var rest := Filter(xs[1..], keep);
      assert xs == [xs[0]] + xs[1..];
      assert multiset(xs) == multiset([xs[0]]) + multiset(xs[1..]);
      (if keep(xs[0]) then [xs[0]] else []) + rest
  }

  /** Filtering distributes over concatenation, so matching records keep their relative order. */
  lemma {:induction false} FilterAppend<T(!new)>(a: seq<T>, b: seq<T>, keep: T -> bool)
    ensures Filter(a + b, keep) == Filter(a, keep) + Filter(b, keep)
  {
    if |a| > 0 {
      assert (a + b)[1..] == a[1..] + b;
      FilterAppend(a[1..], b, keep);
    } else {
      assert a + b == b;
    }
  }

  /** The result page data: how many records matched, and which. */
  datatype SearchResults<T> = SearchResults(count: nat, data: seq<T>)

  /** Reference definition of a venue hit: the term occurs in the lower-cased city, state or name. */
  predicate VenueHit(v: Venue, term: string) {
    || (v.city.Some? && IsSubstring(term, LowerText(v.city.value)))
    || (v.state.Some? && IsSubstring(term, LowerText(v.state.value)))
    || (v.name.Some? && IsSubstring(term, LowerText(v.name.value)))
  }

  /** Reference definition of an artist hit: the term occurs in the lower-cased name. */
  predicate ArtistHit(a: Artist, term: string) {
    a.name.Some? && IsSubstring(term, LowerText(a.name.value))
  }

  /**
   * Venue search: each queried venue that hits the lower-cased term is returned as often as it was
   * queried, no other venue is returned, and the count is the number of rows returned.
   */
  function SearchVenues(form: Form, all: seq<Venue>): (r: SearchResults<Venue>)
    requires PlainTerm(RawTerm(form))
    ensures r.count == |r.data|
    ensures forall v :: multiset(r.data)[v] == if VenueHit(v, LowerText(RawTerm(form))) then multiset(all)[v] else 0
    ensures forall v :: v in r.data <==> v in all && VenueHit(v, LowerText(RawTerm(form)))
  {
    var term := LowerText(RawTerm(form));
    var data := Filter(all, v => VenueMatches(v, term));
    SearchResults(|data|, data)
  }

  /**
   * Artist search: each queried artist that hits the lower-cased term is returned as often as it was
   * queried, no other artist is returned, and the count is the number of rows returned.
   */
  function SearchArtists(form: Form, all: seq<Artist>): (r: SearchResults<Artist>)
    requires PlainTerm(RawTerm(form))
    ensures r.count == |r.data|
    ensures forall a :: multiset(r.data)[a] == if ArtistHit(a, LowerText(RawTerm(form))) then multiset(all)[a] else 0
    ensures forall a :: a in r.data <==> a in all && ArtistHit(a, LowerText(RawTerm(form)))
  {
    var term := LowerText(RawTerm(form));
    var data := Filter(all, a => ArtistMatches(a, term));
    SearchResults(|data|, data)
  }

  /** Search results of a query split in two are the results of each part, in order. */
  lemma VenueSearchKeepsQueryOrder(form: Form, first: seq<Venue>, second: seq<Venue>)
    requires PlainTerm(RawTerm(form))
    ensures SearchVenues(form, first + second).data == SearchVenues(form, first).data + SearchVenues(form, second).data
  {
    var term := LowerText(RawTerm(form));
    FilterAppend(first, second, v => VenueMatches(v, term));
  }

  /** The empty term occurs in every text. */
  lemma EmptyTermOccurs(text: string)
    ensures IsSubstring("", text)
  {
    assert OccursAt("", text, 0);
  }

  /** An empty or absent term lists every venue that has a city, a state or a name. */
  lemma EmptyTermListsAllVenues(form: Form, all: seq<Venue>)
    requires RawTerm(form) == ""
    ensures forall v :: v in SearchVenues(form, all).data <==>
      v in all && (v.city.Some? || v.state.Some? || v.name.Some?)
  {
    forall v | v in all
      ensures VenueMatches(v, "") <==> v.city.Some? || v.state.Some? || v.name.Some?
    {
      if v.city.Some? { EmptyTermOccurs(LowerText(v.city.value)); }
      if v.state.Some? { EmptyTermOccurs(LowerText(v.state.value)); }
      if v.name.Some? { EmptyTermOccurs(LowerText(v.name.value)); }
    }
    assert LowerText("") == "";
  }

  /** An empty or absent term lists every artist that has a name. */
  lemma EmptyTermListsAllArtists(form: Form, all: seq<Artist>)
    requires RawTerm(form) == ""
    ensures forall a :: a in SearchArtists(form, all).data <==> a in all && a.name.Some?
  {
    forall a | a in all && a.name.Some?
      ensures ArtistMatches(a, "")
    {
      EmptyTermOccurs(LowerText(a.name.value));
    }
    assert LowerText("") == "";
  }

  /** Searching for a term gives the same venues as searching for its lower-case form ("NYC" and "nyc"). */
  lemma VenueSearchIgnoresTermCase(form: Form, all: seq<Venue>)
    requires PlainTerm(RawTerm(form))
    ensures PlainTerm(LowerText(RawTerm(form)))
    ensures SearchVenues(form["search_term" := [LowerText(RawTerm(form))]], all) == SearchVenues(form, all)
  {
    LowerTextIdempotent(RawTerm(form));
    assert RawTerm(form["search_term" := [LowerText(RawTerm(form))]]) == LowerText(RawTerm(form));
  }

  /** Searching for a term gives the same artists as searching for its lower-case form. */
  lemma ArtistSearchIgnoresTermCase(form: Form, all: seq<Artist>)
    requires PlainTerm(RawTerm(form))
    ensures PlainTerm(LowerText(RawTerm(form)))
    ensures SearchArtists(form["search_term" := [LowerText(RawTerm(form))]], all) == SearchArtists(form, all)
  {
    LowerTextIdempotent(RawTerm(form));
    assert RawTerm(form["search_term" := [LowerText(RawTerm(form))]]) == LowerText(RawTerm(form));
  }

  /** A column matches regardless of the case it is stored in. */
  lemma FieldMatchIgnoresColumnCase(field: string, term: string)
    ensures FieldMatches(Some(field), term) == FieldMatches(Some(LowerText(field)), term)
  {
    LowerTextIdempotent(field);
  }
}

=== FILE: shows.dfy ===
/** Splitting a venue's or artist's shows into past and upcoming relative to a given instant. */
module Shows {
  import opened Optional
  import opened Records
  import Genres

  /** A show is upcoming exactly when it starts strictly after `now`; a show at `now` is past. */
  predicate IsUpcoming(show: Show, now: int) {
    show.startTime > now
  }

  /** Reference definition: the upcoming shows, in their original order. */
  function Upcoming(shows: seq<Show>, now: int): seq<Show>
  {
    if |shows| == 0 then []
    else (if IsUpcoming(shows[0], now) then [shows[0]] else []) + Upcoming(shows[1..], now)
  }

  /** Reference definition: the past shows, in their original order. */
  function Past(shows: seq<Show>, now: int): seq<Show>
  {
    if |shows| == 0 then []
    else (if IsUpcoming(shows[0], now) then [] else [shows[0]]) + Past(shows[1..], now)
  }

  /** Filtering distributes over concatenation, so it never reorders shows. */
  lemma {:induction false} UpcomingAppend(a: seq<Show>, b: seq<Show>, now: int)
    ensures Upcoming(a + b, now) == Upcoming(a, now) + Upcoming(b, now)
  {
    if |a| > 0 {
      assert (a + b)[1..] == a[1..] + b;
      UpcomingAppend(a[1..], b, now);
    } else {
      assert a + b == b;
    }
  }

  /** The past filter also distributes over concatenation, so past shows keep their order. */
  lemma {:induction false} PastAppend(a: seq<Show>, b: seq<Show>, now: int)
    ensures Past(a + b, now) == Past(a, now) + Past(b, now)
  {
    if |a| > 0 {
      assert (a + b)[1..] == a[1..] + b;
      PastAppend(a[1..], b, now);
    } else {
      assert a + b == b;
    }
  }

  /** The two lists and two counters the presentation step fills in. */
  datatype Buckets = Buckets(
    pastShows: seq<Show>,
    upcomingShows: seq<Show>,
    pastShowsCount: nat,
    upcomingShowsCount: nat)

  /** One iteration of the classification loop: append the show to one list and bump its counter. */
  function Classify(b: Buckets, show: Show, now: int): Buckets {
    if IsUpcoming(show, now) then
      b.(upcomingShowsCount := b.upcomingShowsCount + 1, upcomingShows := b.upcomingShows + [show])
    else
      b.(pastShows := b.pastShows + [show], pastShowsCount := b.pastShowsCount + 1)
  }

  /** The classification loop run over `shows` in order, starting from empty lists and zero counts. */
  function Partition(shows: seq<Show>, now: int): (b: Buckets)
    ensures b.upcomingShows == Upcoming(shows, now)
    ensures b.pastShows == Past(shows, now)
    ensures b.upcomingShowsCount == |b.upcomingShows|
    ensures b.pastShowsCount == |b.pastShows|
  {
    if |shows| == 0 then Buckets([], [], 0, 0)
    else
      var prefix := shows[..|shows| - 1];
      var last := shows[|shows| - 1];
      assert shows == prefix + [last];
      UpcomingAppend(prefix, [last], now);
      PastAppend(prefix, [last], now);
      Classify(Partition(prefix, now), last, now)
  }

  /** Every show lands in exactly one of the two lists. */
  lemma {:induction false} PartitionIsComplete(shows: seq<Show>, now: int)
    ensures multiset(Upcoming(shows, now)) + multiset(Past(shows, now)) == multiset(shows)
  {
    if |shows| > 0 {
      var head, tail := shows[0], shows[1..];
      PartitionIsComplete(tail, now);
      assert shows == [head] + tail;
      if IsUpcoming(head, now) {
        assert Upcoming(shows, now) == [head] + Upcoming(tail, now);
        assert Past(shows, now) == Past(tail, now);
      } else {
        assert Upcoming(shows, now) == Upcoming(tail, now);
        assert Past(shows, now) == [head] + Past(tail, now);
      }
    }
  }

  /** The two counters add up to the number of shows. */
  lemma PartitionCountsAddUp(shows: seq<Show>, now: int)
    ensures Partition(shows, now).pastShowsCount + Partition(shows, now).upcomingShowsCount == |shows|
  {
    var b := Partition(shows, now);
    PartitionIsComplete(shows, now);
    assert |multiset(b.upcomingShows) + multiset(b.pastShows)| == |multiset(shows)|;
  }

  /** A show is listed as upcoming iff it is one of the shows and starts after `now`. */
  lemma {:induction false} UpcomingMembers(shows: seq<Show>, now: int, s: Show)
    ensures s in Upcoming(shows, now) <==> s in shows && IsUpcoming(s, now)
  {
    if |shows| > 0 {
      UpcomingMembers(shows[1..], now, s);
      assert shows == [shows[0]] + shows[1..];
    }
  }

  /** A show is listed as past iff it is one of the shows and starts at or before `now`. */
  lemma {:induction false} PastMembers(shows: seq<Show>, now: int, s: Show)
    ensures s in Past(shows, now) <==> s in shows && !IsUpcoming(s, now)
  {
    if |shows| > 0 {
      PastMembers(shows[1..], now, s);
      assert shows == [shows[0]] + shows[1..];
    }
  }

  /** The boundary case: a show starting exactly at `now` is past, not upcoming. */
  lemma ShowAtNowIsPast(shows: seq<Show>, s: Show)
    requires s in shows
    ensures s in Partition(shows, s.startTime).pastShows
    ensures s !in Partition(shows, s.startTime).upcomingShows
  {
    PastMembers(shows, s.startTime, s);
    UpcomingMembers(shows, s.startTime, s);
  }

  /** As the clock moves forward, the number of upcoming shows can only fall. */
  lemma {:induction false} UpcomingShrinksOverTime(shows: seq<Show>, earlier: int, later: int)
    requires earlier <= later
    ensures |Upcoming(shows, later)| <= |Upcoming(shows, earlier)|
  {
    if |shows| > 0 {
      UpcomingShrinksOverTime(shows[1..], earlier, later);
    }
  }

  /** A record prepared for its detail page: the record, its genre list, and its shows split by time. */
  datatype Detail = Detail(
    entity: Entity,
    genres: seq<string>,
    pastShows: seq<Show>,
    upcomingShows: seq<Show>,
    pastShowsCount: nat,
    upcomingShowsCount: nat)

  /** Prepares a fetched record (absent when the id was not found) for its detail page. */
  function GetDataWithShows(data: Option<Entity>, now: int): (r: Option<Detail>)
    ensures r.None? <==> data.None?
    ensures r.Some? ==> r.value.entity == data.value
    ensures r.Some? ==> Genres.Join(r.value.genres) == data.value.GenreText()
    ensures r.Some? ==> |r.value.genres| >= 1
    ensures r.Some? ==> forall k :: 0 <= k < |r.value.genres| ==> !Genres.HasSeparator(r.value.genres[k])
    ensures r.Some? ==> r.value.upcomingShows == Upcoming(data.value.Shows(), now)
    ensures r.Some? ==> r.value.pastShows == Past(data.value.Shows(), now)
    ensures r.Some? ==> r.value.upcomingShowsCount == |r.value.upcomingShows|
    ensures r.Some? ==> r.value.pastShowsCount == |r.value.pastShows|
    ensures r.Some? ==> r.value.pastShowsCount + r.value.upcomingShowsCount == |data.value.Shows()|
  {
    match data
    case None => None
    case Some(e) =>
      var genres := Genres.Split(e.GenreText());
      Genres.JoinSplit(e.GenreText());
      var b := if |e.Shows()| > 0 then Partition(e.Shows(), now) else Buckets([], [], 0, 0);
      PartitionCountsAddUp(e.Shows(), now);
      Some(Detail(e, genres, b.pastShows, b.upcomingShows, b.pastShowsCount, b.upcomingShowsCount))
  }

  /**
   * What the name `datetime` denotes where the detail code calls `datetime.now()`. Line 7 of app.py binds it
   * to the module, whose `now` does not exist; the star import of `forms` at line 16 runs afterwards and
   * rebinds it to the class (whose `now` is the clock) if `forms` exports that name. `forms` is not part of
   * this model, so the binding is a parameter.
   */
  datatype DatetimeBinding = DatetimeModule | DatetimeClass

  /** The fault raised when `datetime` still denotes the module: it has no attribute `now`. */
  datatype Fault = AttributeError(message: string)

  /**
   * The shipped code under either binding. It reads the clock once per show, so only when the record has a
   * show; under the module binding the first read raises. Under the class binding every read is taken to
   * return the same instant `now`, whereas the shipped code may see the wall clock move (or step back)
   * between reads, so shows near the boundary could be classified against different instants.
   */
  function GetDataWithShowsAsWritten(data: Option<Entity>, binding: DatetimeBinding, now: int): (r: Result<Option<Detail>, Fault>)
    ensures data.None? ==> r == Ok(None)
    ensures binding == DatetimeModule ==> (r.Err? <==> data.Some? && |data.value.Shows()| > 0)
    ensures binding == DatetimeClass ==> r.Ok?
  {
    match data
    case None => Ok(None)
    case Some(e) =>
      if |e.Shows()| == 0 then Ok(Some(Detail(e, Genres.Split(e.GenreText()), [], [], 0, 0)))
      else match binding
        case DatetimeModule => Err(AttributeError("module 'datetime' has no attribute 'now'"))
        case DatetimeClass => Ok(GetDataWithShows(data, now))
  }

  /**
   * The shipped code fails exactly when `datetime` denotes the module and the record has a show;
   * whenever it returns, it returns what the corrected function returns at the single instant all reads return.
   */
  lemma AsWrittenFailsIffShows(data: Option<Entity>, binding: DatetimeBinding, now: int)
    ensures GetDataWithShowsAsWritten(data, binding, now).Err? <==>
      binding == DatetimeModule && data.Some? && |data.value.Shows()| > 0
    ensures GetDataWithShowsAsWritten(data, binding, now).Ok? ==>
      GetDataWithShowsAsWritten(data, binding, now).value == GetDataWithShows(data, now)
  {
  }

  /** Under the module binding, an artist with one show makes the shipped code raise; the corrected one lists the show as past. */
  lemma AsWrittenCounterexample()
    ensures GetDataWithShowsAsWritten(Some(OfArtist(Artist(1, None, None, None, None, "Jazz", None, None, None, false, None, [Show(1, 1, 1, 0)]))), DatetimeModule, 0).Err?
    ensures GetDataWithShows(Some(OfArtist(Artist(1, None, None, None, None, "Jazz", None, None, None, false, None, [Show(1, 1, 1, 0)]))), 0).value.pastShows == [Show(1, 1, 1, 0)]
  {
  }
}

=== FILE: submissions.dfy ===
/** Building venue and artist records from a submitted form, and overwriting a venue on edit. */
module Submissions {
  import opened Optional
  import opened Records
  import Genres
  import Shows

  /** A seeking checkbox is on exactly when the value submitted for it is "y". */
  predicate Checked(form: Form, key: string) {
    Get(form, key) == Some("y")
  }

  /** The venue a create submission builds; the store assigns `id` and a new venue has no shows. */
  function NewVenue(form: Form, id: int): (r: Venue)
    ensures r.id == id && r.shows == []
    ensures r.name == Get(form, "name")
    ensures r.city == Get(form, "city")
    ensures r.state == Get(form, "state")
    ensures r.address == Get(form, "address")
    ensures r.phone == Get(form, "phone")
    ensures r.websiteLink == Get(form, "website_link")
    ensures r.imageLink == Get(form, "image_link")
    ensures r.genres == Genres.Join(GetList(form, "genres"))
    ensures r.facebookLink == Get(form, "facebook_link")
    ensures r.seekingTalent <==> Get(form, "seeking_talent") == Some("y")
    ensures r.seekingDescription == Get(form, "seeking_description")
  {
    Venue(
      id := id,
      name := Get(form, "name"),
      city := Get(form, "city"),
      state := Get(form, "state"),
      address := Get(form, "address"),
      phone := Get(form, "phone"),
      websiteLink := Get(form, "website_link"),
      imageLink := Get(form, "image_link"),
      genres := Genres.Join(GetList(form, "genres")),
      facebookLink := Get(form, "facebook_link"),
      seekingTalent := Checked(form, "seeking_talent"),
      seekingDescription := Get(form, "seeking_description"),
      shows := [])
  }

  /** The artist a create submission builds; the store assigns `id` and a new artist has no shows. */
  function NewArtist(form: Form, id: int): (r: Artist)
    ensures r.id == id && r.shows == []
    ensures r.name == Get(form, "name")
    ensures r.city == Get(form, "city")
    ensures r.state == Get(form, "state")
    ensures r.phone == Get(form, "phone")
    ensures r.genres == Genres.Join(GetList(form, "genres"))
    ensures r.imageLink == Get(form, "image_link")
    ensures r.facebookLink == Get(form, "facebook_link")
    ensures r.websiteLink == Get(form, "website_link")
    ensures r.seekingVenue <==> Get(form, "seeking_venue") == Some("y")
    ensures r.seekingDescription == Get(form, "seeking_description")
  {
    Artist(
      id := id,
      name := Get(form, "name"),
      city := Get(form, "city"),
      state := Get(form, "state"),
      phone := Get(form, "phone"),
      genres := Genres.Join(GetList(form, "genres")),
      imageLink := Get(form, "image_link"),
      facebookLink := Get(form, "facebook_link"),
      websiteLink := Get(form, "website_link"),
      seekingVenue := Checked(form, "seeking_venue"),
      seekingDescription := Get(form, "seeking_description"),
      shows := [])
  }

  /** The edit of a fetched venue: the eleven editable columns are all replaced by the submitted values. */
  function OverwriteVenue(v: Venue, form: Form): (r: Venue)
    ensures r.id == v.id && r.shows == v.shows
    ensures r.name == Get(form, "name")
    ensures r.city == Get(form, "city")
    ensures r.state == Get(form, "state")
    ensures r.address == Get(form, "address")
    ensures r.phone == Get(form, "phone")
    ensures r.websiteLink == Get(form, "website_link")
    ensures r.imageLink == Get(form, "image_link")
    ensures r.genres == Genres.Join(GetList(form, "genres"))
    ensures r.facebookLink == Get(form, "facebook_link")
    ensures r.seekingTalent <==> Get(form, "seeking_talent") == Some("y")
    ensures r.seekingDescription == Get(form, "seeking_description")
  {
    v.(
      name := Get(form, "name"),
      city := Get(form, "city"),
      state := Get(form, "state"),
      address := Get(form, "address"),
      phone := Get(form, "phone"),
      websiteLink := Get(form, "website_link"),
      imageLink := Get(form, "image_link"),
      genres := Genres.Join(GetList(form, "genres")),
      facebookLink := Get(form, "facebook_link"),
      seekingTalent := Checked(form, "seeking_talent"),
      seekingDescription := Get(form, "seeking_description"))
  }

  /** Every record is stored under its own id. */
  predicate WellKeyed(store: map<int, Venue>) {
    forall id :: id in store ==> store[id].id == id
  }

  /** The venues after an edit submission, and whether the handler took its error path. */
  datatype EditOutcome = EditOutcome(store: map<int, Venue>, error: bool)

  /**
   * The edit handler. Assigning to the fields of a missing venue raises inside the guarded block,
   * so an unknown id takes the error path and changes nothing.
   */
  function EditVenueSubmission(store: map<int, Venue>, venueId: int, form: Form): (r: EditOutcome)
    ensures r.error <==> venueId !in store
    ensures r.error ==> r.store == store
    ensures r.store.Keys == store.Keys
    ensures forall id :: id in store && id != venueId ==> r.store[id] == store[id]
    ensures venueId in store ==> r.store[venueId] == OverwriteVenue(store[venueId], form)
    ensures WellKeyed(store) ==> WellKeyed(r.store)
  {
    if venueId in store then
      EditOutcome(store[venueId := OverwriteVenue(store[venueId], form)], false)
    else
      EditOutcome(store, true)
  }

  /** Editing a venue gives the record a create submission of the same form would build, with the venue's id and shows. */
  lemma EditIsCreateKeepingIdAndShows(v: Venue, form: Form)
    ensures OverwriteVenue(v, form) == NewVenue(form, v.id).(shows := v.shows)
  {
  }

  /** An edit is a full overwrite: what the venue held before, apart from id and shows, does not matter. */
  lemma EditDiscardsPreviousValues(v1: Venue, v2: Venue, form: Form)
    requires v1.id == v2.id && v1.shows == v2.shows
    ensures OverwriteVenue(v1, form) == OverwriteVenue(v2, form)
  {
  }

  /** Submitting the same edit twice leaves the venue as the first submission did. */
  lemma EditIsIdempotent(v: Venue, form: Form)
    ensures OverwriteVenue(OverwriteVenue(v, form), form) == OverwriteVenue(v, form)
  {
  }

  /** Whatever the form, a column whose key was not submitted becomes null, and no genres store "". */
  lemma MissingFieldsBecomeNull(v: Venue, form: Form)
    ensures var r := OverwriteVenue(v, form);
      && ("name" !in form ==> r.name.None?)
      && ("city" !in form ==> r.city.None?)
      && ("state" !in form ==> r.state.None?)
      && ("address" !in form ==> r.address.None?)
      && ("phone" !in form ==> r.phone.None?)
      && ("website_link" !in form ==> r.websiteLink.None?)
      && ("image_link" !in form ==> r.imageLink.None?)
      && ("genres" !in form ==> r.genres == "")
      && ("facebook_link" !in form ==> r.facebookLink.None?)
      && ("seeking_talent" !in form ==> !r.seekingTalent)
      && ("seeking_description" !in form ==> r.seekingDescription.None?)
  {
  }

  /** An edit form carrying only a phone number clears every other editable column. */
  lemma PhoneOnlyEditClearsTheRest(v: Venue, phone: string)
    ensures OverwriteVenue(v, map["phone" := [phone]]).phone == Some(phone)
    ensures var r := OverwriteVenue(v, map["phone" := [phone]]);
      r.name.None? && r.city.None? && r.state.None? && r.address.None? &&
      r.websiteLink.None? && r.imageLink.None? && r.facebookLink.None? &&
      r.seekingDescription.None? && r.genres == "" && !r.seekingTalent
  {
  }

  /** A newly created venue's detail page shows the submitted genres, no shows, and the submitted checkbox. */
  lemma CreatedVenueReadsBack(form: Form, id: int, now: int)
    requires |GetList(form, "genres")| >= 1
    requires forall k :: 0 <= k < |GetList(form, "genres")| ==> !Genres.HasSeparator(GetList(form, "genres")[k])
    ensures Shows.GetDataWithShows(Some(OfVenue(NewVenue(form, id))), now).value.genres == GetList(form, "genres")
    ensures Shows.GetDataWithShows(Some(OfVenue(NewVenue(form, id))), now).value.pastShowsCount == 0
    ensures Shows.GetDataWithShows(Some(OfVenue(NewVenue(form, id))), now).value.upcomingShowsCount == 0
    ensures NewVenue(form, id).seekingTalent <==> Get(form, "seeking_talent") == Some("y")
  {
    Genres.SplitJoin(GetList(form, "genres"));
  }

  /** A newly created artist's detail page shows the submitted genres, no shows, and the submitted checkbox. */
  lemma CreatedArtistReadsBack(form: Form, id: int, now: int)
    requires |GetList(form, "genres")| >= 1
    requires forall k :: 0 <= k < |GetList(form, "genres")| ==> !Genres.HasSeparator(GetList(form, "genres")[k])
    ensures Shows.GetDataWithShows(Some(OfArtist(NewArtist(form, id))), now).value.genres == GetList(form, "genres")
    ensures Shows.GetDataWithShows(Some(OfArtist(NewArtist(form, id))), now).value.pastShowsCount == 0
    ensures Shows.GetDataWithShows(Some(OfArtist(NewArtist(form, id))), now).value.upcomingShowsCount == 0
    ensures NewArtist(form, id).seekingVenue <==> Get(form, "seeking_venue") == Some("y")
  {
    Genres.SplitJoin(GetList(form, "genres"));
  }

  /** With no genre selected the record stores "" and its detail page lists one empty genre. */
  lemma NoGenresReadBackAsOneEmptyGenre(form: Form, id: int, now: int)
    requires GetList(form, "genres") == []
    ensures NewVenue(form, id).genres == ""
    ensures Shows.GetDataWithShows(Some(OfVenue(NewVenue(form, id))), now).value.genres == [""]
  {
    Genres.EmptyListDoesNotRoundTrip();
  }

  /** A checkbox left out of the form leaves the seeking flag off. */
  lemma SeekingFlagDefaultsOff(form: Form, id: int)
    requires "seeking_talent" !in form && "seeking_venue" !in form
    ensures !NewVenue(form, id).seekingTalent
    ensures !NewArtist(form, id).seekingVenue
  {
  }
}
